=== FILE: README.md ===
# Client exposure inspector: the analysis core

The inspector is a browser-console script. It takes a snapshot of what
page scripts can see: the global variables, the global functions with
their source text, and the script-visible cookies. It scans each
function's source with fixed pattern catalogs. For each function it
reports:

- the globals the function mentions;
- the user-controllable sources and dangerous sinks it touches;
- the endpoint URLs it hardcodes;
- its storage reads and writes, and a storage risk tier;
- five heuristic flags (eval with dynamic input, storage to sink,
  storage-backed XSS hint, reverse tabnabbing, weak postMessage origin
  handling), each also shown as a badge.

Over the whole corpus it reports the deduplicated URL list, the parsed
cookies and a summary of counts.

This project models that core as pure Dafny functions over immutable
datatypes.

## Modules

- **`Text`**: JavaScript string primitives.
  - `JsLength` counts UTF-16 code units, so an astral character counts 2.
  - `Trim` uses JavaScript's whitespace set.
  - `Split` and `Join` on one character. `Split` is proved to be the
    inverse of `Join`.
- **`Literals`**: exact semantics for the patterns that are plain
  literals between `\b` anchors.
  - Word characters are `[A-Za-z0-9_]`, as in non-unicode JavaScript
    regexes.
  - A boundary is a change of "word-ness" between neighbouring positions.
  - The `i` flag folds ASCII case.
- **`Catalog`**: the source, sink, storage-read, storage-write and
  endpoint catalogs, with their labels and order.
  - Patterns that are not plain literals are split into their regex
    alternatives. Each alternative is named by a `Regex` constructor, and
    an alternative shared by two patterns is the same constructor.
  - An `Engine` value supplies three things: `test` for those
    constructors, `exec` for the capture list of each endpoint extractor,
    and `mentions` for the dynamic `\b<name>\b` global-name test.
  - `MatchedLabels` is `catalog.filter(p => p.regex.test(src)).map(p => p.label)`.
- **`Dedup`**: `uniq`. It keeps the first occurrence of each truthy
  string, in order. The module also holds the lemmas that relate per-part
  deduplication to whole-list deduplication.
- **`Endpoints`**: the junk filter, the per-function endpoint list, and
  the corpus URL list.
- **`Correlation`**: the five flags.
- **`Risk`**: the storage risk decision table.
- **`Analysis`**: the per-function record, the badges, and facts about
  the record.
- **`Cookies`**: parsing of the cookie string.
- **`Summary`**: the corpus summary counts.
- **`Inspector`**: one whole run.

The record's collections are ordered lists, as in the script: catalog
order for labels (`Catalog.MatchedLabelsAppend`), the order of the global
names for globals (`Analysis.GlobalsUsedAppend`), and first-capture order
for endpoints (`Endpoints.AcceptedOnlyAppend`, `Endpoints.ExtractEndpoints`).

## Model

| member | source | states |
|---|---|---|
| Dedup.Uniq | defencelogic-client-exposure.js:41 | the result has no duplicates; it contains exactly the non-empty strings of the input; it keeps them in the order of their first occurrence |
| Dedup.UniqIsFirstOccurrences | defencelogic-client-exposure.js:41 | `uniq` equals an independent left-to-right definition: keep a string when it is non-empty and not seen before |
| Dedup.UniqOfDistinct | defencelogic-client-exposure.js:41 | a list without duplicates or empty strings comes back unchanged |
| Dedup.UniqIdempotent | defencelogic-client-exposure.js:41 | deduplicating twice is the same as deduplicating once |
| Dedup.UniqAppend | defencelogic-client-exposure.js:41 | deduplicating `a + b` is deduplicating `a` and then keeping each new non-empty string of `b` in order |
| Dedup.UniqOfUniqParts | defencelogic-client-exposure.js:259 | deduplicating the concatenation of two already-deduplicated lists gives the deduplication of the raw concatenation |
| Dedup.UniqWithSet | defencelogic-client-exposure.js:41 | the `Set`-based loop (insertion-ordered set, then drop falsy) computes exactly `Uniq` |
| Text.Split | defencelogic-client-exposure.js:66-67 | `split` on one character gives at least one piece; no piece contains the separator; joining the pieces with it gives back the string |
| Text.SplitLength | defencelogic-client-exposure.js:66 | the number of pieces is the number of separators plus one |
| Text.SplitAfterPrefix | defencelogic-client-exposure.js:66-67 | splitting a text whose first separator follows `head` gives `head` and then the split of the rest |
| Text.SplitJoin | defencelogic-client-exposure.js:67-68 | splitting a join of separator-free pieces gives back those pieces |
| Text.JsLength | defencelogic-client-exposure.js:187 | `url.length` counts UTF-16 code units: between the number of characters and twice that, and zero only for the empty string |
| Text.JsLengthAppend | defencelogic-client-exposure.js:187 | the UTF-16 length of a concatenation is the sum of the lengths |
| Text.JsLengthSingle | defencelogic-client-exposure.js:187 | one character counts 2 beyond the Basic Multilingual Plane and 1 otherwise; with the previous row this fixes every length |
| Text.JsLengthAtLeastTwo | defencelogic-client-exposure.js:187 | `url.length >= 2` holds exactly for two or more characters or a single astral character |
| Text.StartsWith | defencelogic-client-exposure.js:187 | `startsWith` holds exactly when the prefix fits and agrees with the string position by position |
| Text.Join | defencelogic-client-exposure.js:68 | `join` of a non-empty list starts with its first part |
| Text.JoinCountsSeparators | defencelogic-client-exposure.js:68 | joining n separator-free parts puts exactly n - 1 separators in the result |
| Text.Trim | defencelogic-client-exposure.js:67 | `trim` gives a contiguous slice of the input that neither starts nor ends with JavaScript whitespace; everything removed is whitespace |
| Cookies.SplitNameValue | defencelogic-client-exposure.js:67-68 | the name has no `=`; when the piece has an `=`, name, `=` and value rebuild it (the value keeps every later `=`); without one, the name is the piece and the value is empty |
| Cookies.ParseCookie | defencelogic-client-exposure.js:67-68 | a cookie piece is trimmed and then split into name and value as above |
| Cookies.NameValueRoundTrip | defencelogic-client-exposure.js:67-68 | parsing `name=value` with an `=`-free name gives back that name and value |
| Cookies.ParseCookies | defencelogic-client-exposure.js:65-70 | an empty cookie string gives no cookies; otherwise there is one cookie per `;` piece (separators + 1), and each cookie is the parse of its piece |
| Literals.OccursFrom | defencelogic-client-exposure.js:146 | the scan finds a match from position `from` on exactly when one exists |
| Literals.Occurs | defencelogic-client-exposure.js:146-147 | a `\b`-anchored literal regex `test` is true exactly when the literal occurs at some position with the required boundaries (case-folded under `i`) |
| Literals.InsertedWordOccurs | defencelogic-client-exposure.js:146-147 | a word literal written between two non-word neighbours is always found, whatever text surrounds it |
| Literals.UnanchoredWidens | defencelogic-client-exposure.js:208 | a match of the `\b`-anchored form of a literal is also a match of its unanchored form |
| Catalog.MatchedLabels | defencelogic-client-exposure.js:172-177 | a label is reported exactly when some pattern with that label fires on the source; no labels means no pattern fired |
| Catalog.MatchedLabelsAppend | defencelogic-client-exposure.js:172-177 | the labels of a catalog split in two are the labels of the first part followed by those of the second: catalog order, one label per firing pattern |
| Catalog.MatchedLabelsSingle | defencelogic-client-exposure.js:172-177 | a one-pattern catalog reports its label exactly when the pattern fires; with the previous row this fixes the label list of every catalog |
| Endpoints.AcceptedOnly | defencelogic-client-exposure.js:187 | the junk filter keeps exactly the captures that are non-empty, at least 2 UTF-16 units long, and do not start with `javascript:` |
| Endpoints.AcceptedOnlyAppend | defencelogic-client-exposure.js:182-188 | the filter keeps push order: filtering a concatenation is the concatenation of the filtered parts |
| Endpoints.AcceptedOnlySingle | defencelogic-client-exposure.js:187 | a single capture is kept exactly when it passes the filter; with the previous row this fixes the filter's result on every list |
| Endpoints.ExtractEndpoints | defencelogic-client-exposure.js:181-190 | a function's endpoints are duplicate-free, all pass the filter, and are exactly the accepted captures of all extractors, in first-capture order |
| Endpoints.AcceptedCaptureReported | defencelogic-client-exposure.js:182-190 | any capture of any extractor that passes the filter is among the function's endpoints |
| Endpoints.Flatten | defencelogic-client-exposure.js:259 | the `flatMap` of the per-function lists holds exactly the strings of some list |
| Endpoints.AllUrls | defencelogic-client-exposure.js:259 | the corpus URL list has no duplicates and holds exactly the non-empty endpoints of some function |
| Endpoints.AllUrlsOfDeduplicated | defencelogic-client-exposure.js:259 | deduplicating each function's list first and then the flattened lists gives the same as deduplicating the flattened raw lists once |
| Correlation.HasEval | defencelogic-client-exposure.js:193 | `hasEval` holds exactly when the `eval()` or the `Function()` sink pattern fires: the three alternatives are those two sinks' |
| Correlation.EvalWithInput | defencelogic-client-exposure.js:193-197 | the flag holds exactly when the `eval()` or `Function()` sink pattern fires and one of the seven dynamic-input literals occurs |
| Correlation.PlusIsDynamicInput | defencelogic-client-exposure.js:194 | any `+` in the text counts as dynamic input |
| Correlation.EvalWithAnyPlusRaisesFlag | defencelogic-client-exposure.js:193-197 | an `eval(` call in a text holding any `+` (a loop's `i++`, a constant `"1+1"`) raises the flag |
| Correlation.StorageToSink | defencelogic-client-exposure.js:201-203 | the flag holds exactly when there is a storage read and one of the eight render or execution alternatives matches; a read with `.innerHTML =` always raises it |
| Correlation.StorageBackedXssHint | defencelogic-client-exposure.js:207-209 | the hint holds exactly when the wrapped-`getItem` regex or the unanchored `document.cookie` literal matches and a markup or eval sink matches; such a sink is also a storage-to-sink sink |
| Correlation.Tabnabbing | defencelogic-client-exposure.js:143-149 | false without `window.open(`; with it, the flag is cleared exactly when `noopener` or `noreferrer` occurs as a word in any case |
| Correlation.WeakPostMessage | defencelogic-client-exposure.js:153-160 | the flag needs a `message` listener or `onmessage`; an `origin` word anywhere clears it; a listener or `onmessage` without any `origin` word raises it |
| Correlation.IsolationTokenClearsTabnabbing | defencelogic-client-exposure.js:142-148 | a `noopener` or `noreferrer` word anywhere in the function, even outside the `window.open` call, clears the flag |
| Correlation.OriginTokenClearsWeakPostMessage | defencelogic-client-exposure.js:152-159 | an `origin` word anywhere in the function, whether or not it is checked, clears the flag |
| Correlation.CatalogSinkWithReadIsStorageToSink | defencelogic-client-exposure.js:201-203 | a storage read with any of the first eight catalog sinks except `Function()` raises storage-to-sink |
| Correlation.XssHintWithReadIsStorageToSink | defencelogic-client-exposure.js:201-209 | with a storage read, the storage-backed XSS hint implies storage-to-sink |
| Correlation.CookieReadWithMarkupSinkIsXssHint | defencelogic-client-exposure.js:207-209 | a `document.cookie` word read with a markup or eval sink always gives the storage-backed XSS hint |
| Risk.StorageRisk | defencelogic-client-exposure.js:215-222 | `None` exactly without storage use; `Risky` exactly with storage use and an escalating flag; `Benign` exactly with storage use, no escalation, no sink and no endpoint; `Potentially risky` otherwise with storage use |
| Risk.StorageRiskMonotone | defencelogic-client-exposure.js:215-222 | turning any input of the decision table on never lowers the tier |
| Risk.EscalationIsDisjunction | defencelogic-client-exposure.js:219 | only the disjunction of the three escalating flags affects the tier |
| Risk.LabelInjective | defencelogic-client-exposure.js:215-221 | the four tier strings are distinct |
| Analysis.Badges | defencelogic-client-exposure.js:229-234 | each badge is present exactly when its flag holds; there are no other badges; the count is the number of flags that hold |
| Analysis.BadgesInFixedOrder | defencelogic-client-exposure.js:229-234 | badges appear in the fixed push order |
| Analysis.BadgesRoundTrip | defencelogic-client-exposure.js:229-234 | the flags can be read back from the badges |
| Analysis.GlobalsUsed | defencelogic-client-exposure.js:169 | a global is listed exactly when it is a global name that the source mentions |
| Analysis.GlobalsUsedAppend | defencelogic-client-exposure.js:169 | the globals mentioned keep the order of the global names: filtering a concatenation concatenates the filtered parts |
| Analysis.GlobalsUsedSingle | defencelogic-client-exposure.js:169 | one global name is listed exactly when the source mentions it; with the previous row this fixes the list |
| Analysis.Analyze | defencelogic-client-exposure.js:165-254 | the record keeps the function's name and source; its globals, source, sink, read and write labels are the catalog matches on the source; its endpoints are the deduplicated filtered captures; its flags are the five flags of the source given its read labels; its tier agrees with its own matches and flags; its badges are exactly the badges of its flags, in push order |
| Analysis.RecordStorageFacts | defencelogic-client-exposure.js:176-222 | the tier is `None` exactly when the record has no storage read and no storage write; storage-to-sink implies a storage read |
| Analysis.RecordEvalFacts | defencelogic-client-exposure.js:193-197 | the eval flag implies the dynamic-input pattern and an `eval()` or `Function()` entry in the sink list |
| Analysis.RecordTabnabbingFacts | defencelogic-client-exposure.js:143-173 | the tabnabbing flag implies `window.open()` in the sink list |
| Analysis.WritesAloneNoStorageToSink | defencelogic-client-exposure.js:176-203 | without a storage read pattern firing, storage-to-sink is false, and any storage use comes from writes (these are `setItem` writes, since a cookie write is also a read) |
| Analysis.NoReadNoSinkTier | defencelogic-client-exposure.js:215-222 | with no read, no sink, no XSS hint and no endpoint, the tier is `None` without writes and `Benign` with writes |
| Analysis.CookieWriteIsAlsoRead | defencelogic-client-exposure.js:125-136 | every `document.cookie =` write is also listed as a `document.cookie` read |
| Analysis.CookieWriteWithInnerHtmlIsRisky | defencelogic-client-exposure.js:199-222 | a cookie write next to `.innerHTML =` raises storage-to-sink and the XSS hint and makes the function `Risky`, with no `getItem` or other read in the text |
| Analysis.TabnabbingWithoutStorage | defencelogic-client-exposure.js:215-226 | the tabnabbing flag can hold for a function whose tier is `None`: flags and tier are independent |
| Summary.Count | defencelogic-client-exposure.js:266-273 | a filtered count never exceeds the number of functions |
| Summary.CountIsWitnesses | defencelogic-client-exposure.js:266-273 | each count equals the number of positions where its condition holds |
| Summary.TiersPartition | defencelogic-client-exposure.js:271-273 | the four tier counts, `None` included, add up to the number of functions |
| Summary.RetierOneRecord | defencelogic-client-exposure.js:271-273 | moving one record to another tier adds one to the new tier's count, removes one from the old one, and changes no other count |
| Summary.Summarize | defencelogic-client-exposure.js:261-274 | each summary count equals the number of functions with that flag or tier; `Risky`, `Potentially risky` and `Benign` together never exceed the total |
| Inspector.AnalyzeAll | defencelogic-client-exposure.js:165 | one record per function, in order |
| Inspector.Inspect | defencelogic-client-exposure.js:165-274 | the report's records, URLs and cookies are those defined above, and its summary is the summary of those records (every flag and tier count is the number of records where it holds); the cookie total is 0 for an empty cookie string and separators + 1 otherwise |
| Inspector.CorpusUrlsAreDeduplicatedCaptures | defencelogic-client-exposure.js:259 | the corpus URL list is one deduplication of all filtered captures of all functions, in order |
| Inspector.CorpusUrlsAcceptable | defencelogic-client-exposure.js:259 | every corpus URL passes the junk filter |

### Where the code differs from its own comments

- **Potentially risky** (lines 212-221). The comment says "uses storage +
  (endpoints or sources) but no sinks". The code gives `Potentially risky`
  to any storage-using function that has no escalating flag and has a
  sink or an endpoint. Sources are never consulted. `Risk.StorageRisk`
  follows the code.
- **Storage-backed XSS hint** (line 208). The hint's read side is
  `getItem(` followed, within 120 characters, by `)`, optional space and
  a second `)`, or `document.cookie`. A plain
  `var t = localStorage.getItem('k'); el.innerHTML = t;` therefore does
  not raise the hint. It only raises storage-to-sink.
- **`Function(` sink** (lines 107 and 202). The `Function()` sink also
  fires on a bare `Function(`. The storage-to-sink regex only looks for
  `new Function`. A storage read with a bare `Function(` call is
  therefore not a storage-to-sink correlation
  (`Correlation.CatalogSinkWithReadIsStorageToSink` excludes that sink).
- **Cookie writes** (lines 128 and 135). Every match of
  `\bdocument\.cookie\s*=` is also a match of `\bdocument\.cookie\b`, so
  a function that only writes a cookie is also listed as reading one, and
  a cookie write next to a markup sink is `Risky`
  (`Analysis.CookieWriteWithInnerHtmlIsRisky`).
- **Origin check** (lines 152 and 158). The comment says no "origin"
  substring, but the code tests the whole word `\borigin\b`. So
  `originUrl` or `e.originalEvent` does not clear the weak-postMessage
  flag; only `origin` as a word of its own does
  (`Correlation.WeakPostMessage`).
- **Tabnabbing tokens** (lines 142 and 146-147). The comment speaks of
  "noopener"/"noreferrer" literals, but the code matches them as whole
  words in any case: `NoOpener` clears the flag, `noopenerX` does not
  (`Correlation.Tabnabbing`).
- **Dynamic input** (line 194). Any `+` in the text counts as dynamic
  input, so `eval` next to a loop counter's `i++` raises the eval flag
  (`Correlation.EvalWithAnyPlusRaisesFlag`).

## Left out

- Environment enumeration (lines 9-13, 43-60, 75-83): the already-loaded guard, reading `window`, `safeTypeof`, and listing functions with `toString`. That listing includes the `[unreadable]` fallback and drops `[native code]` functions. The model takes the global names, the functions with their source text, and the cookie string as parameters.
- Reading `document.cookie` (line 65): the cookie string is a parameter.
- General regex semantics. The patterns and alternatives that are plain literals, optionally with `\b` anchors, are modelled exactly: the eight source patterns, the `document.cookie` read, `noopener`, `noreferrer`, `onmessage`, `origin`, the unanchored `document.cookie` of the XSS hint, and the seven dynamic-input alternatives. The other alternatives are abstract `Engine.test` results, and the endpoint extractors are abstract `Engine.exec` capture lists. The lazy `(.*?)` capture, the backreference to the opening quote, and the `g`-flag `lastIndex` state are not modelled.
- `Catalog.Coherent`: an assumption about the engine. Each `\b`-anchored or dotted alternative implies its looser spelling in the correlation regexes, and a cookie-write match implies the cookie-read literal. It is a hypothesis of `Correlation.CatalogSinkWithReadIsStorageToSink`, `Analysis.CookieWriteIsAlsoRead` and `Analysis.CookieWriteWithInnerHtmlIsRisky` only.
- Analysis.GlobalsUsed: the dynamic regex `\b<name>\b` is abstracted by `Engine.mentions`. A global name holding regex metacharacters makes `new RegExp` throw in the script, and this failure is not modelled.
- Highlighting the source for display (lines 279-293), rendering the HTML report and `safeRenderHTML` (lines 17-36, 298-421, 426), and the JSON export (lines 428-442): presentation and browser I/O.
- Console logging: a side effect with no bearing on the analysis.

=== FILE: analysis.dfy ===
/**
 Analysis of one function: the catalog matches, the endpoints, the five
 flags, the storage risk tier and the badges, gathered in a record.
 */
module Analysis {
  import opened Literals
  import opened Catalog
  import opened Dedup
  import opened Endpoints
  import opened Correlation
  import opened Risk

  /** A function found in the environment, with the text of its source. */
  datatype FunctionSource = FunctionSource(name: string, source: string)

  datatype Flags = Flags(
    evalWithInput: bool,
    storageToSink: bool,
    storageBackedXSSHint: bool,
    tabnabbingRisk: bool,
    weakPostMessage: bool)

  datatype FunctionRecord = FunctionRecord(
    name: string,
    source: string,
    globalsUsed: seq<string>,
    sourcesUsed: seq<string>,
    sinksUsed: seq<string>,
    endpoints: seq<string>,
    storageReads: seq<string>,
    storageWrites: seq<string>,
    storageRisk: RiskTier,
    flags: Flags,
    badges: seq<string>)

  const EvalBadge := "eval() with dynamic input"
  const StorageToSinkBadge := "storage \U{2192} sink correlation"
  const XssBadge := "possible storage-backed XSS"
  const TabnabbingBadge := "possible reverse tabnabbing"
  const PostMessageBadge := "postMessage origin check not obvious"

  /** All badges, in the order they are pushed. */
  const AllBadges: seq<string> := [EvalBadge, StorageToSinkBadge, XssBadge, TabnabbingBadge, PostMessageBadge]

  function Bit(b: bool): nat {
    if b then 1 else 0
  }

  /** Position of a badge in `AllBadges`. */
  function BadgePosition(b: string): nat {
    if b == EvalBadge then 0
    else if b == StorageToSinkBadge then 1
    else if b == XssBadge then 2
    else if b == TabnabbingBadge then 3
    else 4
  }

  /** The badge of one flag: present exactly when the flag holds. */
  function BadgeIf(flag: bool, badge: string): (s: seq<string>)
    ensures forall b :: b in s <==> flag && b == badge
    ensures |s| == Bit(flag)
  {
    if flag then [badge] else []
  }

  /** The five badge texts are pairwise distinct. */
  lemma BadgesDistinct()
    ensures forall i, j :: 0 <= i < j < |AllBadges| ==> AllBadges[i] != AllBadges[j]
  {
    assert |EvalBadge| == 25 && |StorageToSinkBadge| == 26 && |XssBadge| == 27;
    assert |TabnabbingBadge| == 27 && |PostMessageBadge| == 36;
    assert XssBadge[9] != TabnabbingBadge[9];
  }

  /** One badge per flag that holds, in the fixed order of `AllBadges`. */
  function Badges(f: Flags): (badges: seq<string>)
    ensures EvalBadge in badges <==> f.evalWithInput
    ensures StorageToSinkBadge in badges <==> f.storageToSink
    ensures XssBadge in badges <==> f.storageBackedXSSHint
    ensures TabnabbingBadge in badges <==> f.tabnabbingRisk
    ensures PostMessageBadge in badges <==> f.weakPostMessage
    ensures forall b :: b in badges ==> b in AllBadges
    ensures |badges| == Bit(f.evalWithInput) + Bit(f.storageToSink) + Bit(f.storageBackedXSSHint)
                         + Bit(f.tabnabbingRisk) + Bit(f.weakPostMessage)
  {
    BadgesDistinct();
    assert AllBadges[0] == EvalBadge && AllBadges[1] == StorageToSinkBadge && AllBadges[2] == XssBadge;
    assert AllBadges[3] == TabnabbingBadge && AllBadges[4] == PostMessageBadge;
    BadgeIf(f.evalWithInput, EvalBadge)
    + BadgeIf(f.storageToSink, StorageToSinkBadge)
    + BadgeIf(f.storageBackedXSSHint, XssBadge)
    + BadgeIf(f.tabnabbingRisk, TabnabbingBadge)
    + BadgeIf(f.weakPostMessage, PostMessageBadge)
  }

  lemma BadgePositions()
    ensures forall k :: 0 <= k < |AllBadges| ==> BadgePosition(AllBadges[k]) == k
  {
    BadgesDistinct();
  }

  /** Positions strictly increase along `badges`. */
  predicate InBadgeOrder(badges: seq<string>) {
    forall i, j :: 0 <= i < j < |badges| ==> BadgePosition(badges[i]) < BadgePosition(badges[j])
  }

  /** Appending a badge that comes after everything already pushed keeps
      the order. */
  lemma PushKeepsOrder(acc: seq<string>, flag: bool, badge: string)
    requires InBadgeOrder(acc)
    requires forall b :: b in acc ==> BadgePosition(b) < BadgePosition(badge)
    ensures InBadgeOrder(acc + BadgeIf(flag, badge))
    ensures forall b :: b in acc + BadgeIf(flag, badge) ==> BadgePosition(b) <= BadgePosition(badge)
  {
    var s := acc + BadgeIf(flag, badge);
    forall i, j | 0 <= i < j < |s| ensures BadgePosition(s[i]) < BadgePosition(s[j]) {
      if j >= |acc| {
        assert s[j] == badge && s[i] in acc;
      }
    }
  }

  /** Badges come in the fixed order of `AllBadges`. */
  lemma BadgesInFixedOrder(f: Flags)
    ensures InBadgeOrder(Badges(f))
  {
    BadgePositions();
    var s0 := BadgeIf(f.evalWithInput, EvalBadge);
    var s1 := s0 + BadgeIf(f.storageToSink, StorageToSinkBadge);
    var s2 := s1 + BadgeIf(f.storageBackedXSSHint, XssBadge);
    var s3 := s2 + BadgeIf(f.tabnabbingRisk, TabnabbingBadge);
    assert AllBadges[0] == EvalBadge && AllBadges[1] == StorageToSinkBadge && AllBadges[2] == XssBadge;
    assert AllBadges[3] == TabnabbingBadge && AllBadges[4] == PostMessageBadge;
    PushKeepsOrder(s0, f.storageToSink, StorageToSinkBadge);
    PushKeepsOrder(s1, f.storageBackedXSSHint, XssBadge);
    PushKeepsOrder(s2, f.tabnabbingRisk, TabnabbingBadge);
    PushKeepsOrder(s3, f.weakPostMessage, PostMessageBadge);
  }

  /** The flags a list of badges shows. */
  function FlagsOfBadges(badges: seq<string>): Flags {
    Flags(EvalBadge in badges, StorageToSinkBadge in badges, XssBadge in badges,
          TabnabbingBadge in badges, PostMessageBadge in badges)
  }

  /** The badges determine the flags: reading them back gives the flags. */
  lemma BadgesRoundTrip(f: Flags)
    ensures FlagsOfBadges(Badges(f)) == f
  {
  }

  /** `globalVarNames.filter(v => new RegExp(`\\b${v}\\b`).test(src))`. */
  function GlobalsUsed(e: Engine, globalNames: seq<string>, src: string): (used: seq<string>)
    ensures |used| <= |globalNames|
    ensures forall v :: v in used <==> v in globalNames && e.mentions(v, src)
  {
    if |globalNames| == 0 then []
    else
      var rest := GlobalsUsed(e, globalNames[1..], src);
      assert globalNames == [globalNames[0]] + globalNames[1..];
      if e.mentions(globalNames[0], src) then [globalNames[0]] + rest else rest
  }

  /** The globals mentioned keep the order of `globalNames`: filtering a
      concatenation filters each part and concatenates the results. */
  lemma {:induction false} GlobalsUsedAppend(e: Engine, a: seq<string>, b: seq<string>, src: string)
    ensures GlobalsUsed(e, a + b, src) == GlobalsUsed(e, a, src) + GlobalsUsed(e, b, src)
    decreases |a|
  {
    if |a| > 0 {
      assert (a + b)[0] == a[0];
      assert (a + b)[1..] == a[1..] + b;
      GlobalsUsedAppend(e, a[1..], b, src);
    } else {
      assert a + b == b;
    }
  }

  /** One global name is listed exactly when the source mentions it. */
  lemma GlobalsUsedSingle(e: Engine, v: string, src: string)
    ensures GlobalsUsed(e, [v], src) == (if e.mentions(v, src) then [v] else [])
  {
    assert [v][1..] == [];
  }

  /** The tier a record must carry given its own matches and flags. */
  function TierOf(r: FunctionRecord): RiskTier {
    StorageRisk(|r.storageReads| > 0 || |r.storageWrites| > 0,
                r.flags.storageToSink, r.flags.storageBackedXSSHint, r.flags.evalWithInput,
                |r.sinksUsed| > 0, |r.endpoints| > 0)
  }

  /** The five flags of a source text, given its storage-read labels. */
  function FlagsOf(e: Engine, src: string, readLabels: seq<string>): Flags {
    Flags(
      EvalWithInput(e, src),
      StorageToSink(e, readLabels, src),
      StorageBackedXssHint(e, src),
      Tabnabbing(e, src),
      WeakPostMessage(e, src))
  }

  /** The body of the per-function `map` of `analyzedFunctions`. */
  function Analyze(e: Engine, globalNames: seq<string>, fn: FunctionSource): (r: FunctionRecord)
    ensures r.name == fn.name && r.source == fn.source
    ensures r.globalsUsed == GlobalsUsed(e, globalNames, fn.source)
    ensures r.sourcesUsed == MatchedLabels(e, SourcePatterns, fn.source)
    ensures r.sinksUsed == MatchedLabels(e, SinkPatterns, fn.source)
    ensures r.storageReads == MatchedLabels(e, StorageReadPatterns, fn.source)
    ensures r.storageWrites == MatchedLabels(e, StorageWritePatterns, fn.source)
    ensures r.endpoints == ExtractEndpoints(e, fn.source)
    ensures r.flags == FlagsOf(e, fn.source, r.storageReads)
    ensures r.storageRisk == TierOf(r)
    ensures r.badges == Badges(r.flags)
  {
    var src := fn.source;
    var readLabels := MatchedLabels(e, StorageReadPatterns, src);
    var writeLabels := MatchedLabels(e, StorageWritePatterns, src);
    var sinks := MatchedLabels(e, SinkPatterns, src);
    var endpoints := ExtractEndpoints(e, src);
    var flags := FlagsOf(e, src, readLabels);
    var tier := StorageRisk(|readLabels| > 0 || |writeLabels| > 0,
                            flags.storageToSink, flags.storageBackedXSSHint, flags.evalWithInput,
                            |sinks| > 0, |endpoints| > 0);
    FunctionRecord(fn.name, src, GlobalsUsed(e, globalNames, src),
                   MatchedLabels(e, SourcePatterns, src), sinks, endpoints,
                   readLabels, writeLabels, tier, flags, Badges(flags))
  }

  /** A record's tier is `None` exactly when it has no storage read and no
      storage write, and its storage-to-sink flag needs a storage read. */
  lemma RecordStorageFacts(e: Engine, globalNames: seq<string>, fn: FunctionSource)
    ensures var r := Analyze(e, globalNames, fn);
      && (r.storageRisk == None <==> |r.storageReads| == 0 && |r.storageWrites| == 0)
      && (r.flags.storageToSink ==> |r.storageReads| > 0)
  {
  }

  /** A record's eval flag needs the dynamic-input pattern and an `eval()`
      or `Function()` sink in its sink list. */
  lemma RecordEvalFacts(e: Engine, globalNames: seq<string>, fn: FunctionSource)
    ensures var r := Analyze(e, globalNames, fn);
      && (r.flags.evalWithInput ==> Fires(e, DynamicInput, fn.source))
      && (r.flags.evalWithInput ==> "eval()" in r.sinksUsed || "Function()" in r.sinksUsed)
  {
    var r := Analyze(e, globalNames, fn);
    if r.flags.evalWithInput {
      assert SinkPatterns[4].name == "eval()" && SinkPatterns[5].name == "Function()";
    }
  }

  /** A record's tabnabbing flag comes with the `window.open()` sink. */
  lemma RecordTabnabbingFacts(e: Engine, globalNames: seq<string>, fn: FunctionSource)
    ensures var r := Analyze(e, globalNames, fn);
      r.flags.tabnabbingRisk ==> "window.open()" in r.sinksUsed
  {
    var r := Analyze(e, globalNames, fn);
    if r.flags.tabnabbingRisk {
      assert SinkPatterns[9].name == "window.open()" && Fires(e, SinkPatterns[9].matcher, fn.source);
    }
  }

  /** Storage writes alone never raise the storage-to-sink flag. This
      covers the `setItem` writes only: a `document.cookie =` write is also
      a `document.cookie` read (`CookieWriteIsAlsoRead`), so it never comes
      without a storage read. */
  lemma WritesAloneNoStorageToSink(e: Engine, globalNames: seq<string>, fn: FunctionSource)
    requires forall i :: 0 <= i < |StorageReadPatterns| ==> !Fires(e, StorageReadPatterns[i].matcher, fn.source)
    ensures !Analyze(e, globalNames, fn).flags.storageToSink
    ensures Analyze(e, globalNames, fn).storageRisk != None ==> |Analyze(e, globalNames, fn).storageWrites| > 0
  {
  }

  /** A source text with neither a storage read nor a sink nor an endpoint
      is `None` without storage writes and `Benign` with them. The eval
      flag needs a catalog sink, so it cannot escalate the tier here; the
      storage-backed XSS hint has to be excluded separately, because its
      unanchored `document.cookie` and `insertAdjacentHTML(` fire without
      any read label or catalog sink, as in
      `localStorage.setItem('a','b'); xdocument.cookie; myinsertAdjacentHTML(`,
      which is `Risky`. */
  lemma NoReadNoSinkTier(e: Engine, globalNames: seq<string>, fn: FunctionSource)
    requires forall i :: 0 <= i < |StorageReadPatterns| ==> !Fires(e, StorageReadPatterns[i].matcher, fn.source)
    requires forall i :: 0 <= i < |SinkPatterns| ==> !Fires(e, SinkPatterns[i].matcher, fn.source)
    requires !StorageBackedXssHint(e, fn.source)
    requires |ExtractEndpoints(e, fn.source)| == 0
    ensures var r := Analyze(e, globalNames, fn);
      r.storageRisk == (if |r.storageWrites| == 0 then None else Benign)
  {
    var r := Analyze(e, globalNames, fn);
    assert !r.flags.evalWithInput;
  }

  /** The risk tier and the flags are independent: the tabnabbing flag can
      hold for a function that touches no storage. */
  lemma TabnabbingWithoutStorage(e: Engine, globalNames: seq<string>, fn: FunctionSource)
    requires e.test(WindowOpenCall, fn.source)
    requires !Occurs(fn.source, Noopener) && !Occurs(fn.source, Noreferrer)
    requires forall i :: 0 <= i < |StorageReadPatterns| ==> !Fires(e, StorageReadPatterns[i].matcher, fn.source)
    requires forall i :: 0 <= i < |StorageWritePatterns| ==> !Fires(e, StorageWritePatterns[i].matcher, fn.source)
    ensures Analyze(e, globalNames, fn).flags.tabnabbingRisk
    ensures Analyze(e, globalNames, fn).storageRisk == None
  {
  }

  /** With a coherent engine every `document.cookie =` write is also a
      `document.cookie` read: the record lists both. */
  lemma CookieWriteIsAlsoRead(e: Engine, globalNames: seq<string>, fn: FunctionSource)
    requires Coherent(e)
    requires e.test(DocumentCookieAssign, fn.source)
    ensures var r := Analyze(e, globalNames, fn);
      && "document.cookie (write)" in r.storageWrites
      && "document.cookie (read)" in r.storageReads
  {
    assert StorageWritePatterns[2].name == "document.cookie (write)";
    assert StorageReadPatterns[2].name == "document.cookie (read)";
    assert Fires(e, StorageReadPatterns[2].matcher, fn.source);
  }

  /** So a cookie write next to an `.innerHTML =` assignment is a
      storage-to-sink correlation and a storage-backed XSS hint, and the
      function is `Risky`, though it never reads storage. */
  lemma CookieWriteWithInnerHtmlIsRisky(e: Engine, globalNames: seq<string>, fn: FunctionSource)
    requires Coherent(e)
    requires e.test(DocumentCookieAssign, fn.source) && e.test(InnerHtmlAssign, fn.source)
    ensures Analyze(e, globalNames, fn).flags.storageToSink
    ensures Analyze(e, globalNames, fn).flags.storageBackedXSSHint
    ensures Analyze(e, globalNames, fn).storageRisk == Risky
  {
    CookieWriteIsAlsoRead(e, globalNames, fn);
    CookieReadWithMarkupSinkIsXssHint(e, fn.source);
  }
}

=== FILE: catalog.dfy ===
/**
 The pattern catalogs of the inspector (sources, sinks, storage reads,
 storage writes, endpoint extractors) and the regular expressions used by
 the correlation flags.

 Every regular expression of the inspector is split into its top-level
 alternatives (`a|b` matches iff `a` or `b` does). An alternative that is a
 plain literal is a `Literal`, decided exactly by `Literals.Occurs`; every
 other alternative is a constructor of `Regex`, decided by the `Engine`
 given as a parameter, which stands for the JavaScript regular-expression
 engine. Alternatives spelled identically in several places are the same
 constructor, so the engine cannot give them different answers.
 */
module Catalog {
  import opened Literals

  /** The non-literal alternatives, each documented with its pattern text. */
  datatype Regex =
    | InnerHtmlAssign        // \.innerHTML\s*=
    | OuterHtmlAssign        // \.outerHTML\s*=
    | DotInsertAdjacentHtml  // \.insertAdjacentHTML\s*\(
    | InsertAdjacentHtml     // insertAdjacentHTML\s*\(
    | DocumentWriteWord      // \bdocument\.write\s*\(
    | DocumentWrite          // document\.write\s*\(
    | EvalCall               // \beval\s*\(
    | NewFunctionWord        // \bnew\s+Function\b
    | NewFunction            // new\s+Function
    | FunctionCall           // \bFunction\s*\(
    | SetTimeoutStringWord   // \bsetTimeout\s*\(\s*['"`]
    | SetTimeoutString       // setTimeout\s*\(\s*['"`]
    | SetIntervalStringWord  // \bsetInterval\s*\(\s*['"`]
    | SetIntervalString      // setInterval\s*\(\s*['"`]
    | LocationAssign         // \b(?:window\.)?location\s*=
    | WindowOpenCall         // \bwindow\.open\s*\(
    | LocalStorageGetItem    // \blocalStorage\.getItem\s*\(
    | SessionStorageGetItem  // \bsessionStorage\.getItem\s*\(
    | LocalStorageSetItem    // \blocalStorage\.setItem\s*\(
    | SessionStorageSetItem  // \bsessionStorage\.setItem\s*\(
    | DocumentCookieAssign   // \bdocument\.cookie\s*=
    | MessageListener        // \baddEventListener\s*\(\s*['"]message['"]
    | GetItemWrapped         // getItem\s*\([\s\S]{0,120}\)\s*\)

  /** The global endpoint extractors, in the order they are run. */
  datatype EndpointRegex =
    | FetchArgument   // fetch\s*\(\s*(['"`])(.*?)\1          /gi
    | OpenArgument    // open\s*\(\s*(['"`])(.*?)\1           /gi
    | UrlField        // url\s*:\s*(['"`])(.*?)\1             /gi
    | ApiPath         // (['"`])(\/api\/[a-zA-Z0-9/_-]+)\1    /gi
    | PhpPath         // (['"`])(\/[a-zA-Z0-9/_-]+\.php(...)?)\1  /gi
    | JsonPath        // (['"`])(\/[a-zA-Z0-9/_-]+\.json(...)?)\1 /gi

  /** The regular-expression engine and the rest of the environment the
      analysis cannot see:
      - `test(r, s)`: whether `r` matches somewhere in `s`;
      - `exec(r, s)`: the second capture group of every successive match of
        the global regex `r` over `s`, in order (the `exec` loop runs until
        it returns null, which also resets `lastIndex`);
      - `mentions(name, s)`: whether ``new RegExp(`\\b${name}\\b`)`` matches `s`. */
  datatype Engine = Engine(
    test: (Regex, string) -> bool,
    exec: (EndpointRegex, string) -> seq<string>,
    mentions: (string, string) -> bool)

  /** Facts every faithful engine satisfies: a match of an alternative with
      extra `\b` anchors or a leading `.` contains a match of the looser
      spelling used by the correlation flags; and a match of
      `\bdocument\.cookie\s*=` is also a match of `\bdocument\.cookie\b`,
      since `cookie` is then followed by white space or `=`, neither of
      which is a word character. */
  ghost predicate Coherent(e: Engine) {
    && (forall s :: e.test(DocumentCookieAssign, s) ==> Occurs(s, DocumentCookieWord))
    && (forall s :: e.test(DotInsertAdjacentHtml, s) ==> e.test(InsertAdjacentHtml, s))
    && (forall s :: e.test(DocumentWriteWord, s) ==> e.test(DocumentWrite, s))
    && (forall s :: e.test(NewFunctionWord, s) ==> e.test(NewFunction, s))
    && (forall s :: e.test(SetTimeoutStringWord, s) ==> e.test(SetTimeoutString, s))
    && (forall s :: e.test(SetIntervalStringWord, s) ==> e.test(SetIntervalString, s))
  }


  /** A whole pattern: a literal, a non-literal alternative, or either of
      two patterns. */
  datatype Matcher = Lit(lit: Literal) | Re(regex: Regex) | Either(left: Matcher, right: Matcher)

  /** Whether a matcher fires on a source text. */
  predicate Fires(e: Engine, m: Matcher, src: string) {
    match m
    case Lit(l) => Occurs(src, l)
    case Re(r) => e.test(r, src)
    case Either(a, b) => Fires(e, a, src) || Fires(e, b, src)
  }

  datatype PatternDef = PatternDef(name: string, matcher: Matcher)

  /** `\bword\b`, case-sensitive. */
  function Word(text: string): Literal {
    Literal(text, true, true, false)
  }

  const DocumentCookieWord := Word("document.cookie")
  const DocumentCookie := Literal("document.cookie", false, false, false)
  const Noopener := Literal("noopener", true, true, true)
  const Noreferrer := Literal("noreferrer", true, true, true)
  const OnMessage := Word("onmessage")
  const Origin := Word("origin")

  /** The seven alternatives of
      `/(\+|\$\{|\barguments\b|\bvalue\b|\bevent\b|\bdecodeURI\b|\bdecodeURIComponent\b)/`,
      all plain literals. */
  const Plus := Literal("+", false, false, false)
  const TemplateOpen := Literal("${", false, false, false)
  const DynamicInput: Matcher :=
    Either(Lit(Plus), Either(Lit(TemplateOpen), Either(Lit(Word("arguments")), Either(Lit(Word("value")),
      Either(Lit(Word("event")), Either(Lit(Word("decodeURI")), Lit(Word("decodeURIComponent"))))))))

  const SourcePatterns: seq<PatternDef> := [
    PatternDef("location.search", Lit(Word("location.search"))),
    PatternDef("location.hash", Lit(Word("location.hash"))),
    PatternDef("document.cookie", Lit(DocumentCookieWord)),
    PatternDef("document.referrer", Lit(Word("document.referrer"))),
    PatternDef("localStorage", Lit(Word("localStorage"))),
    PatternDef("sessionStorage", Lit(Word("sessionStorage"))),
    PatternDef("DOM input (.value)", Lit(Literal(".value", false, true, false))),
    PatternDef("URLSearchParams", Lit(Word("URLSearchParams")))
  ]

  const SinkPatterns: seq<PatternDef> := [
    PatternDef("innerHTML assignment", Re(InnerHtmlAssign)),
    PatternDef("outerHTML assignment", Re(OuterHtmlAssign)),
    PatternDef("insertAdjacentHTML", Re(DotInsertAdjacentHtml)),
    PatternDef("document.write()", Re(DocumentWriteWord)),
    PatternDef("eval()", Re(EvalCall)),
    PatternDef("Function()", Either(Re(NewFunctionWord), Re(FunctionCall))),
    PatternDef("setTimeout(string)", Re(SetTimeoutStringWord)),
    PatternDef("setInterval(string)", Re(SetIntervalStringWord)),
    PatternDef("location assignment", Re(LocationAssign)),
    PatternDef("window.open()", Re(WindowOpenCall))
  ]

  const StorageReadPatterns: seq<PatternDef> := [
    PatternDef("localStorage.getItem", Re(LocalStorageGetItem)),
    PatternDef("sessionStorage.getItem", Re(SessionStorageGetItem)),
    PatternDef("document.cookie (read)", Lit(DocumentCookieWord))
  ]

  const StorageWritePatterns: seq<PatternDef> := [
    PatternDef("localStorage.setItem", Re(LocalStorageSetItem)),
    PatternDef("sessionStorage.setItem", Re(SessionStorageSetItem)),
    PatternDef("document.cookie (write)", Re(DocumentCookieAssign))
  ]

  const EndpointRegexes: seq<EndpointRegex> :=
    [FetchArgument, OpenArgument, UrlField, ApiPath, PhpPath, JsonPath]

  /** `catalog.filter(p => p.regex.test(src)).map(p => p.label)`: the labels
      of the patterns that fire, in catalog order. */
  function MatchedLabels(e: Engine, catalog: seq<PatternDef>, src: string): (labels: seq<string>)
    ensures |labels| <= |catalog|
    ensures forall l :: l in labels <==>
      exists i :: 0 <= i < |catalog| && catalog[i].name == l && Fires(e, catalog[i].matcher, src)
    ensures |labels| == 0 <==> forall i :: 0 <= i < |catalog| ==> !Fires(e, catalog[i].matcher, src)
  {
    if |catalog| == 0 then []
    else
      var rest := MatchedLabels(e, catalog[1..], src);
      assert forall i :: 1 <= i < |catalog| ==> catalog[i] == catalog[1..][i - 1];
      if Fires(e, catalog[0].matcher, src) then [catalog[0].name] + rest else rest
  }

  /** Matching a catalog split in two matches each part and concatenates
      the labels: the labels keep catalog order, one per firing pattern. */
  lemma {:induction false} MatchedLabelsAppend(e: Engine, a: seq<PatternDef>, b: seq<PatternDef>, src: string)
    ensures MatchedLabels(e, a + b, src) == MatchedLabels(e, a, src) + MatchedLabels(e, b, src)
    decreases |a|
  {
    if |a| > 0 {
      assert (a + b)[0] == a[0];
      assert (a + b)[1..] == a[1..] + b;
      MatchedLabelsAppend(e, a[1..], b, src);
    } else {
      assert a + b == b;
    }
  }

  /** A one-pattern catalog reports that pattern's label exactly when it
      fires; with `MatchedLabelsAppend` this fixes the labels of every
      catalog. */
  lemma MatchedLabelsSingle(e: Engine, p: PatternDef, src: string)
    ensures MatchedLabels(e, [p], src) == (if Fires(e, p.matcher, src) then [p.name] else [])
  {
    assert [p][1..] == [];
  }
}

=== FILE: cookies.dfy ===
/**
 Parsing of the script-visible cookie string: split on `;`, trim each
 piece, split it on `=`, and take the first part as the name and the rest,
 rejoined with `=`, as the value.
 */
module Cookies {
  import opened Text

  datatype Cookie = Cookie(name: string, value: string)

  /** `const [name, ...rest] = t.split("="); { name, value: rest.join("=") }`
      on an already trimmed piece `t`. */
  function SplitNameValue(t: string): (c: Cookie)
    ensures '=' !in c.name
    ensures '=' in t ==> c.name + "=" + c.value == t
    ensures '=' !in t ==> c.name == t && c.value == ""
  {
    var parts := Split(t, '=');
    assert |parts| == 1 ==> t == parts[0];
    Cookie(parts[0], Join(parts[1..], '='))
  }

  /** One `;`-separated piece of the cookie string, trimmed and parsed. */
  function ParseCookie(piece: string): (c: Cookie)
    ensures '=' !in c.name
    ensures '=' in Trim(piece) ==> c.name + "=" + c.value == Trim(piece)
    ensures '=' !in Trim(piece) ==> c.name == Trim(piece) && c.value == ""
  {
    SplitNameValue(Trim(piece))
  }

  /** The cookie list: empty for an empty cookie string, otherwise one
      cookie per `;`-separated piece. */
  function ParseCookies(cookieString: string): (cookies: seq<Cookie>)
    ensures cookieString == "" ==> |cookies| == 0
    ensures cookieString != "" ==> |cookies| == |Split(cookieString, ';')| == CountChar(cookieString, ';') + 1
    ensures cookieString != "" ==>
      forall i :: 0 <= i < |cookies| ==> cookies[i] == ParseCookie(Split(cookieString, ';')[i])
  {
    if cookieString == "" then []
    else
      var pieces := Split(cookieString, ';');
      SplitLength(cookieString, ';');
      seq(|pieces|, i requires 0 <= i < |pieces| => ParseCookie(pieces[i]))
  }

  /** A name free of `=` and any value, joined by `=`, parse back into
      that name and value: the value keeps every further `=`. */
  lemma NameValueRoundTrip(name: string, value: string)
    requires '=' !in name
    ensures SplitNameValue(name + "=" + value) == Cookie(name, value)
  {
    var t := name + "=" + value;
    assert t[|name|] == '=';
    IndexOfAfterPrefix(name, '=', value);
    assert t[..|name|] == name && t[|name| + 1..] == value;
    var parts := Split(t, '=');
    assert parts == [name] + Split(value, '=');
    assert parts[1..] == Split(value, '=');
  }
}

=== FILE: correlation.dfy ===
/**
 The five derived flags of a function: eval with dynamic input, storage to
 sink, storage-backed XSS hint, reverse tabnabbing and weak postMessage
 origin handling. Each is a boolean combination of pattern matches on the
 function's source text.
 */
module Correlation {
  import opened Literals
  import opened Catalog

  /** `/\beval\s*\(|\bnew\s+Function\b|\bFunction\s*\(/`: the same three
      alternatives as the `eval()` and `Function()` sinks together. */
  predicate HasEval(e: Engine, src: string): (b: bool)
    ensures b <==> Fires(e, SinkPatterns[4].matcher, src) || Fires(e, SinkPatterns[5].matcher, src)
  {
    e.test(EvalCall, src) || e.test(NewFunctionWord, src) || e.test(FunctionCall, src)
  }

  /** `hasEval && hasDynamicInput`: the `eval()` or `Function()` sink
      fires together with one of the seven dynamic-input literals. */
  function EvalWithInput(e: Engine, src: string): (flag: bool)
    ensures flag <==>
      && (Fires(e, SinkPatterns[4].matcher, src) || Fires(e, SinkPatterns[5].matcher, src))
      && Fires(e, DynamicInput, src)
  {
    HasEval(e, src) && Fires(e, DynamicInput, src)
  }

  /** A `+` anywhere in the text is dynamic input. */
  lemma PlusIsDynamicInput(e: Engine, src: string)
    requires '+' in src
    ensures Fires(e, DynamicInput, src)
  {
    var i :| 0 <= i < |src| && src[i] == '+';
    assert LiteralAt(src, i, Plus);
  }

  /** So an `eval(` call in a text that also holds any `+`, such as a loop
      counter's `i++` or the constant `eval("1+1")`, raises the flag. */
  lemma EvalWithAnyPlusRaisesFlag(e: Engine, src: string)
    requires e.test(EvalCall, src) && '+' in src
    ensures EvalWithInput(e, src)
  {
    PlusIsDynamicInput(e, src);
  }

  /** The render/execution sinks the storage-to-sink correlation looks for. */
  predicate RenderOrExecSink(e: Engine, src: string) {
    || e.test(InnerHtmlAssign, src) || e.test(OuterHtmlAssign, src)
    || e.test(InsertAdjacentHtml, src) || e.test(DocumentWrite, src)
    || e.test(EvalCall, src) || e.test(NewFunction, src)
    || e.test(SetTimeoutString, src) || e.test(SetIntervalString, src)
  }

  /** `storageReads.length > 0 && <render or execution sink>.test(src)`;
      coarse co-occurrence, not data flow. */
  function StorageToSink(e: Engine, storageReads: seq<string>, src: string): (flag: bool)
    ensures flag ==> |storageReads| > 0 && RenderOrExecSink(e, src)
    ensures |storageReads| > 0 && RenderOrExecSink(e, src) ==> flag
    ensures |storageReads| > 0 && e.test(InnerHtmlAssign, src) ==> flag
  {
    |storageReads| > 0 && RenderOrExecSink(e, src)
  }

  /** The markup and eval sinks of the storage-backed XSS hint: a subset of
      the storage-to-sink alternatives. */
  predicate MarkupSink(e: Engine, src: string) {
    || e.test(InnerHtmlAssign, src) || e.test(InsertAdjacentHtml, src)
    || e.test(DocumentWrite, src) || e.test(EvalCall, src) || e.test(NewFunction, src)
  }

  /** `/getItem\s*\([\s\S]{0,120}\)\s*\)|document\.cookie/.test(src) && <markup sink>`. */
  function StorageBackedXssHint(e: Engine, src: string): (flag: bool)
    ensures flag ==> MarkupSink(e, src) && RenderOrExecSink(e, src)
    ensures flag ==> e.test(GetItemWrapped, src) || exists i :: LiteralAt(src, i, DocumentCookie)
    ensures (e.test(GetItemWrapped, src) || exists i :: LiteralAt(src, i, DocumentCookie)) && MarkupSink(e, src) ==> flag
  {
    (e.test(GetItemWrapped, src) || Occurs(src, DocumentCookie)) && MarkupSink(e, src)
  }

  /** `hasTabnabbingRisk`: `window.open(` present and neither `noopener`
      nor `noreferrer` (any case, as a word) anywhere in the text. */
  function Tabnabbing(e: Engine, src: string): (flag: bool)
    ensures !e.test(WindowOpenCall, src) ==> !flag
    ensures e.test(WindowOpenCall, src) ==>
      (!flag <==> exists i :: LiteralAt(src, i, Noopener) || LiteralAt(src, i, Noreferrer))
  {
    if !e.test(WindowOpenCall, src) then false
    else !(Occurs(src, Noopener) || Occurs(src, Noreferrer))
  }

  /** `hasWeakPostMessageHandling`: a `message` listener or `onmessage`
      present and no `origin` word anywhere in the text. */
  function WeakPostMessage(e: Engine, src: string): (flag: bool)
    ensures flag ==> e.test(MessageListener, src) || exists i :: LiteralAt(src, i, OnMessage)
    ensures (exists i :: LiteralAt(src, i, Origin)) ==> !flag
    ensures ((e.test(MessageListener, src) || exists i :: LiteralAt(src, i, OnMessage))
             && !(exists i :: LiteralAt(src, i, Origin))) ==> flag
  {
    var hasListener := e.test(MessageListener, src) || Occurs(src, OnMessage);
    if !hasListener then false
    else !Occurs(src, Origin)
  }

  /** Whatever else the text holds, a `noopener` or `noreferrer` written
      anywhere as a word of its own clears the tabnabbing flag. */
  lemma IsolationTokenClearsTabnabbing(e: Engine, before: string, token: Literal, after: string)
    requires token == Noopener || token == Noreferrer
    requires !IsWordAt(before, |before| - 1) && !IsWordAt(after, 0)
    ensures !Tabnabbing(e, before + token.text + after)
  {
    InsertedWordOccurs(before, token, after);
  }

  /** An `origin` word written anywhere clears the weak-postMessage flag. */
  lemma OriginTokenClearsWeakPostMessage(e: Engine, before: string, after: string)
    requires !IsWordAt(before, |before| - 1) && !IsWordAt(after, 0)
    ensures !WeakPostMessage(e, before + Origin.text + after)
  {
    InsertedWordOccurs(before, Origin, after);
  }

  /** Reading storage and hitting a catalog sink that writes markup or
      executes a string is a storage-to-sink correlation, except for a bare
      `Function(` call, which the correlation does not look for. */
  lemma CatalogSinkWithReadIsStorageToSink(e: Engine, storageReads: seq<string>, src: string, k: nat)
    requires Coherent(e)
    requires |storageReads| > 0
    requires k < 8 && k != 5
    requires Fires(e, SinkPatterns[k].matcher, src)
    ensures StorageToSink(e, storageReads, src)
  {
  }

  /** With a storage read, the storage-backed XSS hint always comes with
      the storage-to-sink correlation. */
  lemma XssHintWithReadIsStorageToSink(e: Engine, storageReads: seq<string>, src: string)
    requires |storageReads| > 0 && StorageBackedXssHint(e, src)
    ensures StorageToSink(e, storageReads, src)
  {
  }

  /** A `document.cookie` word read together with a markup sink is always a
      storage-backed XSS hint. */
  lemma CookieReadWithMarkupSinkIsXssHint(e: Engine, src: string)
    requires Occurs(src, DocumentCookieWord) && MarkupSink(e, src)
    ensures StorageBackedXssHint(e, src)
  {
    UnanchoredWidens(src, DocumentCookieWord, DocumentCookie);
  }
}

=== FILE: endpoints.dfy ===
/**
 Endpoint extraction: every capture of every endpoint extractor, filtered
 for junk and deduplicated per function; the corpus-wide URL list
 deduplicates the per-function lists once more.
 */
module Endpoints {
  import opened Text
  import opened Dedup
  import opened Catalog

  const JavascriptScheme := "javascript:"

  /** The filter applied to each capture: non-empty, at least two UTF-16
      code units long, and not a `javascript:` pseudo-URL (case-sensitive). */
  predicate Acceptable(url: string) {
    url != "" && JsLength(url) >= 2 && !StartsWith(url, JavascriptScheme)
  }

  /** The captures that pass the filter, in order. */
  function AcceptedOnly(captures: seq<string>): (kept: seq<string>)
    ensures |kept| <= |captures|
    ensures forall u :: u in kept <==> u in captures && Acceptable(u)
  {
    if |captures| == 0 then []
    else
      var rest := AcceptedOnly(captures[1..]);
      assert captures == [captures[0]] + captures[1..];
      if Acceptable(captures[0]) then [captures[0]] + rest else rest
  }

  /** The filter keeps order: filtering a concatenation filters each part
      and concatenates the results. */
  lemma {:induction false} AcceptedOnlyAppend(a: seq<string>, b: seq<string>)
    ensures AcceptedOnly(a + b) == AcceptedOnly(a) + AcceptedOnly(b)
    decreases |a|
  {
    if |a| > 0 {
      assert (a + b)[1..] == a[1..] + b;
      AcceptedOnlyAppend(a[1..], b);
    } else {
      assert a + b == b;
    }
  }

  /** A single capture is kept exactly when it passes the filter; with
      `AcceptedOnlyAppend` this determines the filter on every list. */
  lemma AcceptedOnlySingle(url: string)
    ensures AcceptedOnly([url]) == (if Acceptable(url) then [url] else [])
  {
    assert [url][1..] == [];
  }

  function Flatten(parts: seq<seq<string>>): (flat: seq<string>)
    ensures forall x :: x in flat <==> exists i :: 0 <= i < |parts| && x in parts[i]
  {
    if |parts| == 0 then []
    else
      var rest := Flatten(parts[1..]);
      assert forall i :: 1 <= i < |parts| ==> parts[i] == parts[1..][i - 1];
      parts[0] + rest
  }

  /** Every `url` pushed by the `exec` loops over the extractors, in the
      order the extractors run. */
  function RawEndpoints(e: Engine, src: string): seq<string> {
    AcceptedOnly(Flatten(seq(|EndpointRegexes|, i requires 0 <= i < |EndpointRegexes| =>
      e.exec(EndpointRegexes[i], src))))
  }

  /** `uniq(endpoints)` for one function. */
  function ExtractEndpoints(e: Engine, src: string): (endpoints: seq<string>)
    ensures NoDuplicates(endpoints)
    ensures forall u :: u in endpoints ==> Acceptable(u)
    ensures forall u :: u in endpoints <==> u in RawEndpoints(e, src)
    ensures forall i, j :: 0 <= i < j < |endpoints| ==>
      FirstIndex(RawEndpoints(e, src), endpoints[i]) < FirstIndex(RawEndpoints(e, src), endpoints[j])
    ensures Uniq(endpoints) == endpoints
  {
    var raw := RawEndpoints(e, src);
    UniqIdempotent(raw);
    Uniq(raw)
  }

  /** Every capture of an extractor that passes the filter is reported. */
  lemma AcceptedCaptureReported(e: Engine, src: string, k: nat, url: string)
    requires k < |EndpointRegexes|
    requires url in e.exec(EndpointRegexes[k], src) && Acceptable(url)
    ensures url in ExtractEndpoints(e, src)
  {
    var parts := seq(|EndpointRegexes|, i requires 0 <= i < |EndpointRegexes| =>
      e.exec(EndpointRegexes[i], src));
    assert url in parts[k];
  }

  /** `allUrls = uniq(analyzedFunctions.flatMap(f => f.endpoints))`. */
  function AllUrls(perFunction: seq<seq<string>>): (urls: seq<string>)
    ensures NoDuplicates(urls)
    ensures forall u :: u in urls <==> u != "" && exists i :: 0 <= i < |perFunction| && u in perFunction[i]
  {
    Uniq(Flatten(perFunction))
  }

  function UniqEach(parts: seq<seq<string>>): (r: seq<seq<string>>)
    ensures |r| == |parts|
    ensures forall i :: 0 <= i < |parts| ==> r[i] == Uniq(parts[i])
  {
    seq(|parts|, i requires 0 <= i < |parts| => Uniq(parts[i]))
  }

  lemma FlattenSnoc(parts: seq<seq<string>>, last: seq<string>)
    ensures Flatten(parts + [last]) == Flatten(parts) + last
    decreases |parts|
  {
    if |parts| == 0 {
      assert parts + [last] == [last];
    } else {
      assert (parts + [last])[1..] == parts[1..] + [last];
      FlattenSnoc(parts[1..], last);
    }
  }

  /** Deduplicating per function before deduplicating over the corpus gives
      the same URL list as one deduplication of all captures. */
  lemma {:induction false} AllUrlsOfDeduplicated(parts: seq<seq<string>>)
    ensures AllUrls(UniqEach(parts)) == Uniq(Flatten(parts))
    decreases |parts|
  {
    if |parts| > 0 {
      var init := parts[..|parts| - 1];
      var last := parts[|parts| - 1];
      AllUrlsOfDeduplicated(init);
      assert parts == init + [last];
      assert UniqEach(parts) == UniqEach(init) + [Uniq(last)];
      var deduped := Flatten(UniqEach(init));
      FlattenSnoc(init, last);
      FlattenSnoc(UniqEach(init), Uniq(last));
      calc {
        AllUrls(UniqEach(parts));
        Uniq(deduped + Uniq(last));
        { UniqAppend(deduped, Uniq(last)); }
        KeepAll(Uniq(deduped), Uniq(last));
        { KeepAllUniq(Uniq(deduped), last); }
        KeepAll(Uniq(Flatten(init)), last);
        { UniqAppend(Flatten(init), last); }
        Uniq(Flatten(parts));
      }
    }
  }
}

=== FILE: inspector.dfy ===
/**
 One run of the inspector over a snapshot of the environment: the global
 variable names, the functions with their source text, and the cookie
 string, all supplied by the caller.
 */
module Inspector {
  import opened Text
  import opened Catalog
  import opened Dedup
  import opened Endpoints
  import opened Analysis
  import opened Cookies
  import opened Summary

  datatype Report = Report(
    functions: seq<FunctionRecord>,
    urls: seq<string>,
    cookies: seq<Cookie>,
    summary: Summary)

  /** `analyzedFunctions`. */
  function AnalyzeAll(e: Engine, globalNames: seq<string>, functions: seq<FunctionSource>): (records: seq<FunctionRecord>)
    ensures |records| == |functions|
    ensures forall i :: 0 <= i < |functions| ==> records[i] == Analyze(e, globalNames, functions[i])
  {
    seq(|functions|, i requires 0 <= i < |functions| => Analyze(e, globalNames, functions[i]))
  }

  function EndpointLists(records: seq<FunctionRecord>): (lists: seq<seq<string>>)
    ensures |lists| == |records|
    ensures forall i :: 0 <= i < |records| ==> lists[i] == records[i].endpoints
  {
    seq(|records|, i requires 0 <= i < |records| => records[i].endpoints)
  }

  /** The filtered captures of each function, before any deduplication. */
  function RawEndpointLists(e: Engine, functions: seq<FunctionSource>): (lists: seq<seq<string>>)
    ensures |lists| == |functions|
    ensures forall i :: 0 <= i < |functions| ==> lists[i] == RawEndpoints(e, functions[i].source)
  {
    seq(|functions|, i requires 0 <= i < |functions| => RawEndpoints(e, functions[i].source))
  }

  /** The report: records, corpus URLs, cookies and summary. */
  function Inspect(e: Engine, globalNames: seq<string>, functions: seq<FunctionSource>, cookieString: string): (r: Report)
    ensures r.functions == AnalyzeAll(e, globalNames, functions)
    ensures r.urls == AllUrls(EndpointLists(r.functions))
    ensures r.cookies == ParseCookies(cookieString)
    ensures r.summary == Summarize(r.functions, |globalNames|, |r.cookies|, |r.urls|)
    ensures r.summary.totalFunctions == |functions|
    ensures r.summary.totalGlobals == |globalNames|
    ensures r.summary.totalCookies == (if cookieString == "" then 0 else CountChar(cookieString, ';') + 1)
    ensures r.summary.totalUrls == |r.urls|
    ensures r.summary.storageRisky + r.summary.storagePotential + r.summary.storageBenign <= |functions|
  {
    var records := AnalyzeAll(e, globalNames, functions);
    var urls := AllUrls(EndpointLists(records));
    var cookies := ParseCookies(cookieString);
    Report(records, urls, cookies, Summarize(records, |globalNames|, |cookies|, |urls|))
  }

  /** Deduplicating per function and then over the corpus gives one
      deduplication of all filtered captures of all functions, in order. */
  lemma CorpusUrlsAreDeduplicatedCaptures(e: Engine, globalNames: seq<string>, functions: seq<FunctionSource>)
    ensures AllUrls(EndpointLists(AnalyzeAll(e, globalNames, functions))) == Uniq(Flatten(RawEndpointLists(e, functions)))
  {
    var records := AnalyzeAll(e, globalNames, functions);
    var raw := RawEndpointLists(e, functions);
    forall i | 0 <= i < |functions|
      ensures EndpointLists(records)[i] == Uniq(raw[i])
    {
      assert records[i].endpoints == ExtractEndpoints(e, functions[i].source);
    }
    assert EndpointLists(records) == UniqEach(raw);
    AllUrlsOfDeduplicated(raw);
  }

  /** Every corpus URL passes the junk filter. */
  lemma CorpusUrlsAcceptable(e: Engine, globalNames: seq<string>, functions: seq<FunctionSource>)
    ensures forall u :: u in AllUrls(EndpointLists(AnalyzeAll(e, globalNames, functions))) ==> Acceptable(u)
  {
    var records := AnalyzeAll(e, globalNames, functions);
    forall u | u in AllUrls(EndpointLists(records)) ensures Acceptable(u) {
      var i :| 0 <= i < |records| && u in EndpointLists(records)[i];
      assert u in ExtractEndpoints(e, functions[i].source);
    }
  }
}

=== FILE: literals.dfy ===
/**
 Exact model of the patterns of the inspector that are a plain literal,
 optionally case-insensitive and optionally anchored by `\b` on either side,
 such as `/\bnoopener\b/i` or `/\borigin\b/`. `RegExp.prototype.test` on
 such a pattern is true iff the literal occurs at some position with the
 required word boundaries.

 Without the `u` flag a JavaScript word character is `[A-Za-z0-9_]`, and a
 position is a boundary when exactly one of the characters on its two sides
 is a word character (outside the string counts as a non-word character).
 Case-insensitive matching of an ASCII literal only ever accepts the other
 case of the same ASCII letter, so it is modelled by ASCII lower-casing.
 */
module Literals {

  datatype Literal = Literal(text: string, boundaryBefore: bool, boundaryAfter: bool, ignoreCase: bool)

  predicate IsWordChar(c: char) {
    ('a' <= c <= 'z') || ('A' <= c <= 'Z') || ('0' <= c <= '9') || c == '_'
  }

  /** Whether position `p` of `s` holds a word character (false outside `s`). */
  predicate IsWordAt(s: string, p: int) {
    0 <= p < |s| && IsWordChar(s[p])
  }

  /** `\b` at position `p`, between `s[p-1]` and `s[p]`. */
  predicate BoundaryAt(s: string, p: int) {
    IsWordAt(s, p - 1) != IsWordAt(s, p)
  }

  function LowerAscii(c: char): char {
    if 'A' <= c <= 'Z' then (c as int + 32) as char else c
  }

  predicate CharMatches(c: char, pattern: char, ignoreCase: bool) {
    if ignoreCase then LowerAscii(c) == LowerAscii(pattern) else c == pattern
  }

  /** The literal matches `s` starting at index `i`. */
  predicate LiteralAt(s: string, i: int, lit: Literal) {
    && 0 <= i && i + |lit.text| <= |s|
    && (forall k :: 0 <= k < |lit.text| ==> CharMatches(s[i + k], lit.text[k], lit.ignoreCase))
    && (lit.boundaryBefore ==> BoundaryAt(s, i))
    && (lit.boundaryAfter ==> BoundaryAt(s, i + |lit.text|))
  }

  /** Searches for a match of `lit` at `from` or later. */
  function OccursFrom(s: string, lit: Literal, from: nat): (found: bool)
    ensures found <==> exists i :: from <= i && LiteralAt(s, i, lit)
    decreases |s| + 1 - from
  {
    if from + |lit.text| > |s| then false
    else LiteralAt(s, from, lit) || OccursFrom(s, lit, from + 1)
  }

  /** `regex.test(s)` for a literal pattern. */
  function Occurs(s: string, lit: Literal): (found: bool)
    ensures found <==> exists i :: LiteralAt(s, i, lit)
  {
    OccursFrom(s, lit, 0)
  }

  /** A literal that begins and ends with a word character, like `noopener`. */
  predicate IsWordLiteral(lit: Literal) {
    |lit.text| > 0 && IsWordChar(lit.text[0]) && IsWordChar(lit.text[|lit.text| - 1])
  }

  /** Writing a word literal anywhere, as a word of its own, makes the
      pattern match, whatever the surrounding text. */
  lemma InsertedWordOccurs(before: string, lit: Literal, after: string)
    requires IsWordLiteral(lit)
    requires !IsWordAt(before, |before| - 1)
    requires !IsWordAt(after, 0)
    ensures Occurs(before + lit.text + after, lit)
  {
    var s := before + lit.text + after;
    var n := |lit.text|;
    forall k | 0 <= k < n
      ensures CharMatches(s[|before| + k], lit.text[k], lit.ignoreCase)
    {
      assert s[|before| + k] == lit.text[k];
    }
    assert IsWordAt(s, |before| - 1) == IsWordAt(before, |before| - 1);
    assert s[|before|] == lit.text[0];
    assert s[|before| + n - 1] == lit.text[n - 1];
    assert IsWordAt(s, |before| + n) == IsWordAt(after, 0) by {
      if |before| + n < |s| {
        assert s[|before| + n] == after[0];
      }
    }
    assert LiteralAt(s, |before|, lit);
  }

  /** Dropping a boundary requirement can only widen what a literal matches:
      `\bdocument\.cookie\b` matching implies `document\.cookie` matching. */
  lemma UnanchoredWidens(s: string, anchored: Literal, loose: Literal)
    requires loose.text == anchored.text && loose.ignoreCase == anchored.ignoreCase
    requires loose.boundaryBefore ==> anchored.boundaryBefore
    requires loose.boundaryAfter ==> anchored.boundaryAfter
    requires Occurs(s, anchored)
    ensures Occurs(s, loose)
  {
    var i :| LiteralAt(s, i, anchored);
    assert LiteralAt(s, i, loose);
  }
}

=== FILE: risk.dfy ===
/**
 The storage risk tier of a function: a fixed-priority decision table over
 "uses storage", the three escalating flags, "any sink" and "any endpoint".
 */
module Risk {

  /** `storageRisk`: "None", "Benign", "Potentially risky" or "Risky". */
  datatype RiskTier = None | Benign | PotentiallyRisky | Risky

  function Label(t: RiskTier): string {
    match t
    case None => "None"
    case Benign => "Benign"
    case PotentiallyRisky => "Potentially risky"
    case Risky => "Risky"
  }

  /** Position of a tier in `None < Benign < PotentiallyRisky < Risky`. */
  function Rank(t: RiskTier): nat {
    match t
    case None => 0
    case Benign => 1
    case PotentiallyRisky => 2
    case Risky => 3
  }

  /** The decision table: no storage access is `None` whatever else holds;
      with storage access, any escalating flag is `Risky`; otherwise no
      sink and no endpoint is `Benign`, and anything else is
      `PotentiallyRisky`. */
  function StorageRisk(usesStorage: bool, storageToSink: bool, storageBackedXss: bool,
                       evalWithInput: bool, anySink: bool, anyEndpoint: bool): (t: RiskTier)
    ensures t == None <==> !usesStorage
    ensures t == Risky <==> usesStorage && (storageToSink || storageBackedXss || evalWithInput)
    ensures t == Benign <==>
      usesStorage && !storageToSink && !storageBackedXss && !evalWithInput && !anySink && !anyEndpoint
    ensures t == PotentiallyRisky <==>
      usesStorage && !storageToSink && !storageBackedXss && !evalWithInput && (anySink || anyEndpoint)
  {
    if !usesStorage then None
    else if storageToSink || storageBackedXss || evalWithInput then Risky
    else if !anySink && !anyEndpoint then Benign
    else PotentiallyRisky
  }

  /** Tier labels are distinct, so a tier can be read back from its label. */
  lemma LabelInjective(t: RiskTier, u: RiskTier)
    ensures Label(t) == Label(u) <==> t == u
  {
  }

  /** Turning any input of the table from false to true never lowers the tier. */
  lemma StorageRiskMonotone(a: bool, b: bool, c: bool, d: bool, f: bool, g: bool,
                            a': bool, b': bool, c': bool, d': bool, f': bool, g': bool)
    requires (a ==> a') && (b ==> b') && (c ==> c') && (d ==> d') && (f ==> f') && (g ==> g')
    ensures Rank(StorageRisk(a, b, c, d, f, g)) <= Rank(StorageRisk(a', b', c', d', f', g'))
  {
  }

  /** The three escalating flags only count through their disjunction. */
  lemma EscalationIsDisjunction(u: bool, b: bool, c: bool, d: bool, f: bool, g: bool)
    ensures StorageRisk(u, b, c, d, f, g) == StorageRisk(u, b || c || d, false, false, f, g)
  {
  }
}

=== FILE: summary.dfy ===
/**
 The corpus summary: totals, and for each flag and each storage tier the
 number of analyzed functions where it holds.
 */
module Summary {
  import opened Risk
  import opened Analysis

  /** What a summary bucket counts. */
  datatype Metric =
    | EvalWithInputCount
    | StorageToSinkCount
    | StorageBackedXssCount
    | TabnabbingCount
    | WeakPostMessageCount
    | TierCount(tier: RiskTier)

  predicate Holds(r: FunctionRecord, m: Metric) {
    match m
    case EvalWithInputCount => r.flags.evalWithInput
    case StorageToSinkCount => r.flags.storageToSink
    case StorageBackedXssCount => r.flags.storageBackedXSSHint
    case TabnabbingCount => r.flags.tabnabbingRisk
    case WeakPostMessageCount => r.flags.weakPostMessage
    case TierCount(t) => r.storageRisk == t
  }

  /** `records.filter(f => <m holds of f>).length`. */
  function Count(records: seq<FunctionRecord>, m: Metric): (n: nat)
    ensures n <= |records|
    decreases |records|
  {
    if |records| == 0 then 0
    else Count(records[..|records| - 1], m) + (if Holds(records[|records| - 1], m) then 1 else 0)
  }

  /** The positions of the records where `m` holds. */
  ghost function Witnesses(records: seq<FunctionRecord>, m: Metric): set<int> {
    set i | 0 <= i < |records| && Holds(records[i], m)
  }

  /** The witnesses of a list are those of its prefix, plus its last
      position when the metric holds there. */
  lemma WitnessesSnoc(records: seq<FunctionRecord>, m: Metric)
    requires |records| > 0
    ensures var n := |records| - 1;
      Witnesses(records, m)
        == Witnesses(records[..n], m) + (if Holds(records[n], m) then {n} else {})
  {
    var n := |records| - 1;
    var init := records[..n];
    forall i | 0 <= i < n ensures init[i] == records[i] { }
  }

  /** Each count is the number of records where its metric holds. */
  lemma {:induction false} CountIsWitnesses(records: seq<FunctionRecord>, m: Metric)
    ensures Count(records, m) == |Witnesses(records, m)|
    decreases |records|
  {
    if |records| > 0 {
      var n := |records| - 1;
      CountIsWitnesses(records[..n], m);
      WitnessesSnoc(records, m);
      assert n !in Witnesses(records[..n], m);
    }
  }

  /** Every record is in exactly one tier bucket. */
  lemma {:induction false} TiersPartition(records: seq<FunctionRecord>)
    ensures Count(records, TierCount(None)) + Count(records, TierCount(Benign))
          + Count(records, TierCount(PotentiallyRisky)) + Count(records, TierCount(Risky)) == |records|
    decreases |records|
  {
    if |records| > 0 {
      TiersPartition(records[..|records| - 1]);
    }
  }

  /** The positions of `true` in a list of booleans. */
  ghost function Trues(marks: seq<bool>): set<int> {
    set j | 0 <= j < |marks| && marks[j]
  }

  lemma TruesAfterUpdate(marks: seq<bool>, i: nat, v: bool)
    requires i < |marks|
    ensures |Trues(marks[i := v])| + (if marks[i] then 1 else 0) == |Trues(marks)| + (if v then 1 else 0)
  {
    var common := Trues(marks) - {i};
    assert Trues(marks[i := v]) - {i} == common;
    if marks[i] {
      assert Trues(marks) == common + {i};
    } else {
      assert Trues(marks) == common;
    }
    if v {
      assert Trues(marks[i := v]) == common + {i};
    } else {
      assert Trues(marks[i := v]) == common;
    }
  }

  /** Replacing one record changes a metric's witnesses at that position only. */
  lemma WitnessesAfterReplace(records: seq<FunctionRecord>, i: nat, r: FunctionRecord, m: Metric)
    requires i < |records|
    ensures |Witnesses(records[i := r], m)| + (if Holds(records[i], m) then 1 else 0)
         == |Witnesses(records, m)| + (if Holds(r, m) then 1 else 0)
  {
    var marks := seq(|records|, j requires 0 <= j < |records| => Holds(records[j], m));
    var after := records[i := r];
    assert Witnesses(records, m) == Trues(marks);
    assert Witnesses(after, m) == Trues(marks[i := Holds(r, m)]);
    TruesAfterUpdate(marks, i, Holds(r, m));
  }

  /** Moving one record to another tier moves it between exactly two tier
      buckets and leaves the other buckets and every flag count as they were. */
  lemma RetierOneRecord(records: seq<FunctionRecord>, i: nat, t: RiskTier, m: Metric)
    requires i < |records| && records[i].storageRisk != t
    ensures var after := records[i := records[i].(storageRisk := t)];
      && Count(after, TierCount(t)) == Count(records, TierCount(t)) + 1
      && Count(after, TierCount(records[i].storageRisk)) + 1 == Count(records, TierCount(records[i].storageRisk))
      && (m != TierCount(t) && m != TierCount(records[i].storageRisk) ==> Count(after, m) == Count(records, m))
  {
    var r := records[i].(storageRisk := t);
    var after := records[i := r];
    var metrics := [TierCount(t), TierCount(records[i].storageRisk), m];
    forall k | 0 <= k < 3
      ensures Count(after, metrics[k]) + (if Holds(records[i], metrics[k]) then 1 else 0)
           == Count(records, metrics[k]) + (if Holds(r, metrics[k]) then 1 else 0)
    {
      WitnessesAfterReplace(records, i, r, metrics[k]);
      CountIsWitnesses(records, metrics[k]);
      CountIsWitnesses(after, metrics[k]);
    }
    assert Holds(r, metrics[0]) && !Holds(records[i], metrics[0]);
    assert !Holds(r, metrics[1]) && Holds(records[i], metrics[1]);
    if m != TierCount(t) && m != TierCount(records[i].storageRisk) {
      assert Holds(r, metrics[2]) == Holds(records[i], metrics[2]);
    }
  }

  datatype Summary = Summary(
    totalFunctions: nat,
    totalGlobals: nat,
    totalCookies: nat,
    totalUrls: nat,
    evalWithInput: nat,
    storageToSink: nat,
    storageBackedXSSHint: nat,
    tabnabbingRisk: nat,
    weakPostMessage: nat,
    storageRisky: nat,
    storagePotential: nat,
    storageBenign: nat)

  /** The `summary` object, from the records and the three totals computed
      elsewhere. */
  function Summarize(records: seq<FunctionRecord>, totalGlobals: nat, totalCookies: nat, totalUrls: nat): (s: Summary)
    ensures s.totalFunctions == |records|
    ensures s.totalGlobals == totalGlobals && s.totalCookies == totalCookies && s.totalUrls == totalUrls
    ensures s.evalWithInput == |Witnesses(records, EvalWithInputCount)|
    ensures s.storageToSink == |Witnesses(records, StorageToSinkCount)|
    ensures s.storageBackedXSSHint == |Witnesses(records, StorageBackedXssCount)|
    ensures s.tabnabbingRisk == |Witnesses(records, TabnabbingCount)|
    ensures s.weakPostMessage == |Witnesses(records, WeakPostMessageCount)|
    ensures s.storageRisky == |Witnesses(records, TierCount(Risky))|
    ensures s.storagePotential == |Witnesses(records, TierCount(PotentiallyRisky))|
    ensures s.storageBenign == |Witnesses(records, TierCount(Benign))|
    ensures s.storageRisky + s.storagePotential + s.storageBenign <= s.totalFunctions
  {
    CountIsWitnesses(records, EvalWithInputCount);
    CountIsWitnesses(records, StorageToSinkCount);
    CountIsWitnesses(records, StorageBackedXssCount);
    CountIsWitnesses(records, TabnabbingCount);
    CountIsWitnesses(records, WeakPostMessageCount);
    CountIsWitnesses(records, TierCount(Risky));
    CountIsWitnesses(records, TierCount(PotentiallyRisky));
    CountIsWitnesses(records, TierCount(Benign));
    TiersPartition(records);
    Summary(
      |records|, totalGlobals, totalCookies, totalUrls,
      Count(records, EvalWithInputCount),
      Count(records, StorageToSinkCount),
      Count(records, StorageBackedXssCount),
      Count(records, TabnabbingCount),
      Count(records, WeakPostMessageCount),
      Count(records, TierCount(Risky)),
      Count(records, TierCount(PotentiallyRisky)),
      Count(records, TierCount(Benign)))
  }
}

=== FILE: text.dfy ===
/**
 String helpers with JavaScript semantics: UTF-16 length, `startsWith`,
 `trim`, `split` on a single character and `join`.
 Strings are sequences of Unicode scalar values.
 */
module Text {

  /** Number of UTF-16 code units of `s`, which is what a JavaScript
      `length` reports: characters beyond the Basic Multilingual Plane take
      two code units. */
  function JsLength(s: string): (n: nat)
    ensures |s| <= n <= 2 * |s|
    ensures n == 0 <==> |s| == 0
  {
    if |s| == 0 then 0
    else (if s[0] as int >= 0x1_0000 then 2 else 1) + JsLength(s[1..])
  }

  /** The UTF-16 length adds up over concatenation. */
  lemma {:induction false} JsLengthAppend(a: string, b: string)
    ensures JsLength(a + b) == JsLength(a) + JsLength(b)
    decreases |a|
  {
    if |a| > 0 {
      assert (a + b)[0] == a[0];
      assert (a + b)[1..] == a[1..] + b;
      JsLengthAppend(a[1..], b);
    } else {
      assert a + b == b;
    }
  }

  /** One character is two code units beyond the Basic Multilingual Plane
      and one otherwise; with `JsLengthAppend` this fixes every length. */
  lemma JsLengthSingle(c: char)
    ensures JsLength([c]) == if c as int >= 0x1_0000 then 2 else 1
  {
    assert [c][1..] == [];
  }

  /** The `url.length >= 2` test: two characters or more, or a single
      character beyond the Basic Multilingual Plane. */
  lemma JsLengthAtLeastTwo(s: string)
    ensures JsLength(s) >= 2 <==> |s| >= 2 || (|s| == 1 && s[0] as int >= 0x1_0000)
  {
    if |s| == 1 {
      assert s == [s[0]];
      JsLengthSingle(s[0]);
    }
  }

  /** `s.startsWith(prefix)`. */
  predicate StartsWith(s: string, prefix: string): (b: bool)
    ensures b <==> |prefix| <= |s| && forall i :: 0 <= i < |prefix| ==> s[i] == prefix[i]
  {
    |prefix| <= |s| && s[..|prefix|] == prefix
  }

  /** The characters `String.prototype.trim` removes: the WhiteSpace and
      LineTerminator code points of ECMA-262 (the Zs category written out). */
  predicate IsJsWhitespace(c: char) {
    var n := c as int;
    n == 0x09 || n == 0x0A || n == 0x0B || n == 0x0C || n == 0x0D || n == 0x20
    || n == 0xA0 || n == 0x1680 || (0x2000 <= n <= 0x200A)
    || n == 0x2028 || n == 0x2029 || n == 0x202F || n == 0x205F
    || n == 0x3000 || n == 0xFEFF
  }

  function TrimStart(s: string): (r: string)
    ensures |r| <= |s| && r == s[|s| - |r|..]
    ensures forall k :: 0 <= k < |s| - |r| ==> IsJsWhitespace(s[k])
    ensures |r| == 0 || !IsJsWhitespace(r[0])
  {
    if |s| > 0 && IsJsWhitespace(s[0]) then TrimStart(s[1..]) else s
  }

  function TrimEnd(s: string): (r: string)
    ensures |r| <= |s| && r == s[..|r|]
    ensures forall k :: |r| <= k < |s| ==> IsJsWhitespace(s[k])
    ensures |r| == 0 || !IsJsWhitespace(r[|r| - 1])
  {
    if |s| > 0 && IsJsWhitespace(s[|s| - 1]) then TrimEnd(s[..|s| - 1]) else s
  }

  /** `s.trim()`: the slice of `s` left after cutting whitespace from both
      ends; it neither starts nor ends with whitespace. */
  function Trim(s: string): (r: string)
    ensures |r| == 0 || (!IsJsWhitespace(r[0]) && !IsJsWhitespace(r[|r| - 1]))
    ensures var i := |s| - |TrimStart(s)|;
      && i + |r| <= |s| && r == s[i..i + |r|]
      && (forall k :: 0 <= k < i ==> IsJsWhitespace(s[k]))
      && (forall k :: i + |r| <= k < |s| ==> IsJsWhitespace(s[k]))
  {
    TrimEnd(TrimStart(s))
  }

  /** Index of the first occurrence of `c` in `s`. */
  function IndexOf(s: string, c: char): (k: nat)
    requires c in s
    ensures k < |s| && s[k] == c && c !in s[..k]
  {
    if s[0] == c then 0
    else
      assert s == [s[0]] + s[1..];
      var k := IndexOf(s[1..], c);
      assert s[..k + 1] == [s[0]] + s[1..][..k];
      k + 1
  }

  function CountChar(s: string, c: char): nat {
    if |s| == 0 then 0
    else (if s[0] == c then 1 else 0) + CountChar(s[1..], c)
  }

  /** `parts.join(sep)`; the empty list joins to the empty string. */
  function Join(parts: seq<string>, sep: char): (s: string)
    ensures |parts| > 0 ==> |parts[0]| <= |s| && s[..|parts[0]|] == parts[0]
  {
    if |parts| == 0 then ""
    else if |parts| == 1 then parts[0]
    else
      var rest := Join(parts[1..], sep);
      assert (parts[0] + [sep] + rest)[..|parts[0]|] == parts[0];
      parts[0] + [sep] + rest
  }

  /** `s.split(sep)` for a one-character separator: never empty, no piece
      contains the separator, and joining the pieces gives `s` back. */
  function Split(s: string, sep: char): (parts: seq<string>)
    ensures |parts| >= 1
    ensures forall i :: 0 <= i < |parts| ==> sep !in parts[i]
    ensures Join(parts, sep) == s
    decreases |s|
  {
    if sep in s then
      var k := IndexOf(s, sep);
      var rest := Split(s[k + 1..], sep);
      assert s == s[..k] + [sep] + s[k + 1..];
      [s[..k]] + rest
    else
      [s]
  }

  lemma {:induction false} CountCharAppend(a: string, b: string, c: char)
    ensures CountChar(a + b, c) == CountChar(a, c) + CountChar(b, c)
  {
    if |a| == 0 {
      assert a + b == b;
    } else {
      assert (a + b)[1..] == a[1..] + b;
      CountCharAppend(a[1..], b, c);
    }
  }

  lemma {:induction false} CountCharAbsent(s: string, c: char)
    requires c !in s
    ensures CountChar(s, c) == 0
  {
    if |s| > 0 {
      assert s[0] != c;
      CountCharAbsent(s[1..], c);
    }
  }

  /** `s.split(sep)` has one more piece than `s` has separators. */
  lemma {:induction false} SplitLength(s: string, sep: char)
    ensures |Split(s, sep)| == CountChar(s, sep) + 1
    decreases |s|
  {
    if sep in s {
      var k := IndexOf(s, sep);
      SplitLength(s[k + 1..], sep);
      assert s == s[..k] + ([sep] + s[k + 1..]);
      CountCharAppend(s[..k], [sep] + s[k + 1..], sep);
      CountCharAppend([sep], s[k + 1..], sep);
      CountCharAbsent(s[..k], sep);
      assert CountChar([sep], sep) == 1 + CountChar([sep][1..], sep);
    } else {
      CountCharAbsent(s, sep);
    }
  }

  lemma IndexOfAfterPrefix(head: string, sep: char, tail: string)
    requires sep !in head
    ensures IndexOf(head + [sep] + tail, sep) == |head|
  {
    var s := head + [sep] + tail;
    assert s[|head|] == sep;
  }

  /** Joining n separator-free parts puts exactly n - 1 separators in the
      result. */
  lemma {:induction false} JoinCountsSeparators(parts: seq<string>, sep: char)
    requires |parts| >= 1
    requires forall i :: 0 <= i < |parts| ==> sep !in parts[i]
    ensures CountChar(Join(parts, sep), sep) == |parts| - 1
    decreases |parts|
  {
    CountCharAbsent(parts[0], sep);
    if |parts| > 1 {
      var rest := Join(parts[1..], sep);
      JoinCountsSeparators(parts[1..], sep);
      CountCharAppend(parts[0] + [sep], rest, sep);
      CountCharAppend(parts[0], [sep], sep);
      assert CountChar([sep], sep) == 1 + CountChar([sep][1..], sep);
    }
  }

  /** Splitting at the first separator: the text before it is the first
      piece and the rest is split on. */
  lemma SplitAfterPrefix(head: string, sep: char, tail: string)
    requires sep !in head
    ensures Split(head + [sep] + tail, sep) == [head] + Split(tail, sep)
  {
    var s := head + [sep] + tail;
    IndexOfAfterPrefix(head, sep, tail);
    assert s[..|head|] == head;
    assert s[|head| + 1..] == tail;
  }

  /** Splitting undoes joining when no piece holds the separator. */
  lemma {:induction false} SplitJoin(parts: seq<string>, sep: char)
    requires |parts| >= 1
    requires forall i :: 0 <= i < |parts| ==> sep !in parts[i]
    ensures Split(Join(parts, sep), sep) == parts
    decreases |parts|
  {
    if |parts| > 1 {
      var tail := Join(parts[1..], sep);
      assert Join(parts, sep) == parts[0] + [sep] + tail;
      SplitAfterPrefix(parts[0], sep, tail);
      SplitJoin(parts[1..], sep);
      assert parts == [parts[0]] + parts[1..];
    }
  }
}

=== FILE: uniq.dfy ===
/**
 `uniq(arr) = [...new Set(arr)].filter(Boolean)` on lists of strings: keep
 the first occurrence of every value, in first-seen order, and drop the
 empty string (the only falsy string).
 */
module Dedup {

  predicate NoDuplicates(xs: seq<string>) {
    forall i, j :: 0 <= i < j < |xs| ==> xs[i] != xs[j]
  }

  /** Index of the first occurrence of `x` in `xs`. */
  function FirstIndex(xs: seq<string>, x: string): (k: nat)
    requires x in xs
    ensures k < |xs| && xs[k] == x && x !in xs[..k]
  {
    if xs[0] == x then 0
    else
      var k := FirstIndex(xs[1..], x);
      assert xs[..k + 1] == [xs[0]] + xs[1..][..k];
      k + 1
  }

  lemma FirstIndexOfPrefix(xs: seq<string>, y: string, x: string)
    requires x in xs
    ensures FirstIndex(xs + [y], x) == FirstIndex(xs, x)
  {
    var k := FirstIndex(xs, x);
    assert (xs + [y])[k] == x;
  }

  /** One step of the set-based pass: add `x` unless it is empty or already kept. */
  function Keep(kept: seq<string>, x: string): seq<string> {
    if x == "" || x in kept then kept else kept + [x]
  }

  /** `uniq(xs)`. */
  function Uniq(xs: seq<string>): (r: seq<string>)
    ensures NoDuplicates(r)
    ensures forall x :: x in r <==> x in xs && x != ""
    ensures forall i, j :: 0 <= i < j < |r| ==> FirstIndex(xs, r[i]) < FirstIndex(xs, r[j])
    decreases |xs|
  {
    if |xs| == 0 then []
    else
      var init := xs[..|xs| - 1];
      var y := xs[|xs| - 1];
      var kept := Uniq(init);
      assert xs == init + [y];
      assert forall x :: x in kept ==> FirstIndex(xs, x) == FirstIndex(init, x) by {
        forall x | x in kept ensures FirstIndex(xs, x) == FirstIndex(init, x) {
          FirstIndexOfPrefix(init, y, x);
        }
      }
      if y == "" || y in kept then kept
      else
        assert y !in init;
        assert FirstIndex(xs, y) == |init|;
        kept + [y]
  }

  /** The list of values of `xs` in order, with every later repetition and
      every empty string removed: an independent definition of `uniq`. */
  function FirstOccurrences(xs: seq<string>): seq<string> {
    if |xs| == 0 then []
    else
      var init := xs[..|xs| - 1];
      var y := xs[|xs| - 1];
      FirstOccurrences(init) + (if y != "" && y !in init then [y] else [])
  }

  /** `uniq` keeps exactly the first occurrence of each non-empty value. */
  lemma {:induction false} UniqIsFirstOccurrences(xs: seq<string>)
    ensures Uniq(xs) == FirstOccurrences(xs)
    decreases |xs|
  {
    if |xs| > 0 {
      UniqIsFirstOccurrences(xs[..|xs| - 1]);
    }
  }

  /** `uniq` leaves a list without repetitions or empty strings unchanged. */
  lemma {:induction false} UniqOfDistinct(xs: seq<string>)
    requires NoDuplicates(xs) && "" !in xs
    ensures Uniq(xs) == xs
    decreases |xs|
  {
    if |xs| > 0 {
      var init := xs[..|xs| - 1];
      UniqOfDistinct(init);
      assert xs[|xs| - 1] !in init;
      assert init + [xs[|xs| - 1]] == xs;
    }
  }

  /** `uniq` is idempotent. */
  lemma UniqIdempotent(xs: seq<string>)
    ensures Uniq(Uniq(xs)) == Uniq(xs)
  {
    UniqOfDistinct(Uniq(xs));
  }

  /** Continues a `uniq` pass that has already kept `kept`, over `xs`. */
  function KeepAll(kept: seq<string>, xs: seq<string>): seq<string>
    decreases |xs|
  {
    if |xs| == 0 then kept
    else Keep(KeepAll(kept, xs[..|xs| - 1]), xs[|xs| - 1])
  }

  lemma {:induction false} KeepAllMembers(kept: seq<string>, xs: seq<string>)
    ensures forall x :: x in KeepAll(kept, xs) <==> x in kept || (x in xs && x != "")
    decreases |xs|
  {
    if |xs| > 0 {
      KeepAllMembers(kept, xs[..|xs| - 1]);
      assert xs == xs[..|xs| - 1] + [xs[|xs| - 1]];
    }
  }

  /** `uniq` over a concatenation continues the pass over the first part. */
  lemma {:induction false} UniqAppend(a: seq<string>, b: seq<string>)
    ensures Uniq(a + b) == KeepAll(Uniq(a), b)
    decreases |b|
  {
    if |b| == 0 {
      assert a + b == a;
    } else {
      var b' := b[..|b| - 1];
      UniqAppend(a, b');
      assert (a + b)[..|a + b| - 1] == a + b';
    }
  }

  /** Deduplicating the second part first changes nothing. */
  lemma {:induction false} KeepAllUniq(kept: seq<string>, b: seq<string>)
    ensures KeepAll(kept, Uniq(b)) == KeepAll(kept, b)
    decreases |b|
  {
    if |b| > 0 {
      var b' := b[..|b| - 1];
      var y := b[|b| - 1];
      KeepAllUniq(kept, b');
      KeepAllMembers(kept, b');
      var u := Uniq(b');
      if y == "" || y in u {
      } else {
        assert (u + [y])[..|u + [y]| - 1] == u;
      }
    }
  }

  /** Deduplicating each part before deduplicating the whole gives the same
      list as deduplicating the whole directly. */
  lemma UniqOfUniqParts(a: seq<string>, b: seq<string>)
    ensures Uniq(Uniq(a) + Uniq(b)) == Uniq(a + b)
  {
    UniqAppend(Uniq(a), Uniq(b));
    UniqIdempotent(a);
    KeepAllUniq(Uniq(a), b);
    UniqAppend(a, b);
  }

  /** The set-based pass of `uniq`, one element at a time, as the source
      writes it with a `Set` that also records the empty string. */
  method UniqWithSet(xs: seq<string>) returns (r: seq<string>)
    ensures r == Uniq(xs)
  {
    var seen: set<string> := {};
    r := [];
    var i := 0;
    while i < |xs|
      invariant 0 <= i <= |xs|
      invariant r == Uniq(xs[..i])
      invariant forall x :: x in seen <==> x in xs[..i]
    {
      assert xs[..i + 1] == xs[..i] + [xs[i]];
      if xs[i] !in seen {
        seen := seen + {xs[i]};
        if xs[i] != "" {
          r := r + [xs[i]];
        }
      }
      i := i + 1;
    }
    assert xs[..i] == xs;
  }
}
